=== FILE: README.md ===
# bookworm command layer in Dafny

This project models the pure part of bookworm's command-construction layer.
bookworm is a book-scanning pipeline that drives ImageMagick's `convert` and
Ghostscript. The model covers two source files:

- `command.py`, the helpers:
  - the validating `Resolution` factory and `unit_str`;
  - temporary file and directory naming (`name.ext` becomes
    `name.bookworm.ext`, and output goes into `__bookworm__/`);
  - extension filtering of a `{path, files}` dictionary;
  - the `files_exist` check;
  - `quoted_string`.
- `expand_page.py`, the page-expanding command:
  - the six-token argv of `convert -extent WxH -background white -gravity Center "src" "dst"`
    and its terminal rendering;
  - the single and batch factories;
  - the `process_args` entry point.

Everything is a pure function over strings, sequences, sets and maps.
Exceptions are values of `Errors.Result`. The file system is a
`FileSystem` record: the set of paths `os.path.isfile` accepts, the set
`os.path.isdir` accepts, and (used only by the corrected directory branch)
what each directory lists.

Modules, one per concern:

- `Errors` (errors.dfy): the exception kinds (`KeyError`, `IndexError`,
  `TypeError`, `ValueError`, `FileNotFoundError`), `Option` and `Result`.
- `Decimal` (decimal.dfy): `str(int)` and the parser that inverts it.
- `PyValues` (pyvalues.dfy): the dynamically typed values that reach the
  checks. `int`, `bool`, `str` and `None` are kept apart, and a dimensions
  value is either a tuple of scalars or a bare scalar. It also models the
  three operations the checks apply to them: `'{}'.format`, subscription
  and Python 3's `x <= 0`.
- `Paths` (paths.dfy): `posixpath.splitext`, `dirname` and two-argument
  `join`, written out with '/' as the only separator, including
  `splitext`'s rule that leading dots of a name do not start an extension.
  This module also proves the facts about them that the rest needs.
- `Command` (command.py).
- `ExpandPage` (expand_page.py).

Behaviour of the source worth noting:

- A file input with no `output` entry is expanded onto the input path
  itself, not onto `name.bookworm.ext`. Only an empty or otherwise falsy
  `output` leads to the temporary name: `""`, or `None`, which the model
  does not represent. An absent `output` with the input `""` also reaches
  `temp_file_name`, since the input then becomes the empty target.
- `process_args` accepts `True` as a dimension, because `True <= 0` is false.
  `make_resolution` rejects `True`, because `type(True)` is not `int`.
  `process_args` also accepts positive floats such as `(2160.5, 3060)`, and
  NaN, because `nan <= 0` is false. This is despite the test docstring's
  demand for integer dimensions. Floats are not part of this model (see
  Left out).
- The directory branch of `process_args` never builds a batch. It always
  raises TypeError (see Findings).
- The test suite calls `expand_page.make` and reads `action.source_file`.
  Neither exists in `expand_page.py`. The model uses the source's names
  (`expand_page_with_fill`, `source`).

## Model

| member | source | states |
|---|---|---|
| Command.MakeResolution | command.py:21-31 | The unit string is checked first: a unit outside the two accepted names is a ValueError, whatever the magnitude. Next, a magnitude that is not exactly an int (a bool included) is a TypeError. Then an int ≤ 0 is a ValueError. It succeeds exactly when all three checks pass. The result holds the magnitude unchanged (> 0), and `unit_str` of the result gives back the unit string passed in. |
| Command.UnitStr | command.py:34-38 | The returned name is an accepted unit string, and the unit table maps it back to the resolution's unit, so it inverts the table lookup. |
| Command.MakeResolutionOfUnitStr | command.py:21-38 | The factory rebuilds every resolution with a positive magnitude from that magnitude and its unit name (the reverse round trip). |
| Command.TempFileName | command.py:100-111 | A name that `splitext` finds no extension in raises IndexError (the source indexes an empty string), and only such a name fails. Otherwise the result is the root, then `.bookworm.`, then the extension without its dot. |
| Command.TempFileNameOfStem | command.py:100-111 | `stem.ext` becomes `stem.bookworm.ext`, so stem and extension are both kept, for every stem whose last component is not all dots and every extension without '.' or '/'. |
| Command.TempFileNameInDirectory | command.py:100-111 | `dir/name.ext` becomes `dir/name.bookworm.ext` for a plain name in a directory. |
| Command.TempFileNameSplits | command.py:100-111 | Splitting the temporary name gives the original extension, with the original root followed by `.bookworm` as its root. |
| Command.DefaultSubdirectory | command.py:122-123 | The default output subdirectory is a single relative path component with one trailing '/'. So `join` appends it to a directory rather than replacing the directory. |
| Command.TempDirectory | command.py:114-123 | The result is the file's directory (whether or not the extension was removed first) joined with `__bookworm__/`, so it always ends with `default_subdirectory()`. |
| Command.TempDirectoryInDirectory | command.py:114-123 | For a file directly in `dir/`, the temporary directory is `dir/__bookworm__/`. |
| Command.WithExtension | command.py:126-145 | An empty extension raises IndexError. After that, a missing `path` and then a missing `files` entry raise KeyError. On success `path` is unchanged and `files` is an order-preserving subsequence of the input. Each name appears in it as often as in the input when its extension equals the normalised extension, and never otherwise. |
| Command.WithExtensionMembers | command.py:126-145 | With both entries present, a name is kept exactly when it is listed and its extension is the normalised one. |
| Command.WithExtensionNormalizes | command.py:135-137 | `"tiff"` and `".tiff"` give the same result. |
| Command.FilesExist | command.py:148-157 | The answer is true exactly when every listed file is in the set of existing files, so it is true for an empty list. |
| Command.QuotedString | command.py:164-177 | The result starts and ends with `"`, is at most two characters longer, contains the input right at its start or just after an added quote, and is the input itself when the input is already quoted. A quote is added only at an end that lacks one: the length grows by exactly the number of unquoted ends, and an input already quoted at the start is kept as the result's prefix. |
| Command.QuotedStringIdempotent | command.py:164-177 | Quoting a quoted string changes nothing. |
| ExpandPage.Construct | expand_page.py:10-18 | Source, target, width and height are stored unchanged. For integer dimensions, the extent token reads back as exactly (width, height). |
| ExpandPage.ExtentRoundTrip | expand_page.py:12 | `-extent {w}x{h}` parses back to (w, h) for all integers. |
| ExpandPage.AsPythonSubprocess | expand_page.py:20-21 | There are exactly six tokens. The first four are the command, extent, background and gravity fields. The last two unquote to the source and the target. |
| ExpandPage.OnlyExtentToken | expand_page.py:14-21 | In any argv of that shape with quoted operands, no token other than the second starts with `-extent `. |
| ExpandPage.ArgvOfConstruct | expand_page.py:10-21 | The argv of a constructed command is `convert`, `-extent {w}x{h}`, `-background white`, `-gravity Center`, "source", "target". The extent token is the only one that starts with the extent flag. |
| ExpandPage.AsTerminalCommand | expand_page.py:23-30 | The terminal string is the first five argv tokens joined by single spaces, then a space, then the quoted target with `[{w}x{h}]` appended. |
| ExpandPage.MakeExpandPage | expand_page.py:33-42 | An empty target is replaced by `temp_file_name(source)`, and the call fails (IndexError) exactly when that does. Any other target is used verbatim. A success is exactly the `convert` command `Construct` builds from the source, that target and the given width and height. |
| ExpandPage.SampleTempFileName | tests/test_expand_page.py:16-17 | `sample/sample1.tiff` has the temporary name `sample/sample1.bookworm.tiff`. |
| ExpandPage.MakeExpandPageSample | tests/test_expand_page.py:16-20 | With no target, the test page gets a command that targets `sample/sample1.bookworm.tiff` with extent 2160x3060. |
| ExpandPage.MultiExpandPage | expand_page.py:45-52 | This is the corrected batch. Its key set is exactly the set of distinct sources. Each entry is the command for its own source, with the given width and height, targeting the source's temporary name. It fails (IndexError) exactly when some source has no extension. |
| ExpandPage.MultiExpandPageAsWritten | expand_page.py:45-52 | This is the batch as written. With any source and a height that is not a string, it raises TypeError. When it does succeed, the keys are still the sources, but each command's width is its source path and its height is the width. |
| ExpandPage.MultiExpandPageArgumentOrder | expand_page.py:49 | With the test suite's 2160x3060 and one `.tiff` page, the batch as written raises TypeError, while the corrected batch succeeds. |
| ExpandPage.CheckDimensions | expand_page.py:62-71 | `dimensions[0]` and `dimensions[1]` are taken first: a short tuple raises IndexError and a non-subscriptable value raises TypeError. A non-numeric width is a TypeError. A width ≤ 0 is a ValueError, whatever the height (short-circuit). After a positive width, a non-numeric height is a TypeError and a height ≤ 0 is a ValueError. It succeeds exactly when both are positive numbers. |
| ExpandPage.ProcessArgs | expand_page.py:55-96 | A missing `input` raises KeyError, then a missing `dimensions`. Dimension errors come next, before the file system is asked. An input that is neither a file nor a directory raises FileNotFoundError. A directory input raises TypeError. A file input yields a command whose source is the input and whose width and height are the checked dimensions. Its target is the input when `output` is absent and `output` verbatim when that is non-empty, and every such non-empty target succeeds. Every success is exactly the `convert` command `Construct` builds from the input, its target and the checked dimensions. When the target is empty, either an explicit `output` of `""` or no output with input `""`, the temporary name of the input is used. The call succeeds exactly when that name exists, and otherwise raises IndexError. |
| ExpandPage.ProcessArgsValidatesFirst | expand_page.py:55-71 | Key and dimension failures do not depend on what exists on disk. |
| ExpandPage.ProcessArgsFileWithoutOutput | expand_page.py:74-82 | A file input with positive integer dimensions and no `output` gives exactly the command from the input onto itself. |
| ExpandPage.ProcessArgsRejectsTextHeight | tests/test_expand_page.py:63-71 | A positive width with a text height such as "Potato" is a TypeError for every input and file system. |
| ExpandPage.ProcessArgsFixed | expand_page.py:84-93 | This is the corrected processor. It agrees with `ProcessArgs` (a file result wrapped as `Single`, and the same errors) everywhere except for a valid directory input. There, every command in the batch has its own key as its source and carries the checked dimensions. Each entry is exactly the `convert` command `Construct` builds for its key with those dimensions, targeting the key's temporary name. |
| ExpandPage.ProcessArgsFixedDirectory | expand_page.py:84-93 | For an existing directory and valid dimensions, the corrected processor succeeds with a batch. The batch's keys are exactly the directory-joined paths of the listed `.tiff` names. |

## Left out

- `TerminalCommand.run`, `setup` and `commit`, and the `PageCommand` and `PDFCommand` stubs are not modelled. They run subprocesses, touch the file system, or raise `NotImplemented`.
- The `Runner` and the `unpack_pdf` and `util` modules are not part of this model. Their source is not available, so the Ghostscript argv and `image_dir` cannot be checked against code.
- `Resolution.__repr__` and `__str__` are not modelled. They are display only, and `__repr__` has a typo at command.py:44.
- The `raise Error('')` in `unit_str` is not modelled. The unit enum has two members, so that branch is unreachable.
- Floating-point dimensions and magnitudes are not modelled. Neither are nested containers or non-string `input`/`output` values. Of the Python values, only `int`, `bool`, `str` and `None` are represented.
- Exception messages are modelled only for the ValueError and FileNotFoundError texts the source writes, and for the missing key. Messages of built-in exceptions are not. Neither is the one TypeError message the source writes itself: `make_resolution`'s `'resolution_val' must be a positive integer` (command.py:26). `Command.MakeResolution` returns a bare TypeError there, because the model's TypeError carries no payload.
- Paths follow POSIX `posixpath` with '/' only. Windows separators and bytes paths are not covered.
- Command.QuotedString: requires a non-empty string. On an empty string the source indexes `string[0]` and raises IndexError, which is not modelled as a result.
- ExpandPage.MultiExpandPage: ignores its `target` argument, as the source does.
- ExpandPage.ProcessArgsFixed: the intended directory behaviour is inferred from the surrounding code and tests. It lists the directory, keeps the `.tiff` names, joins them with the directory and batches them with the checked dimensions. The computed output directory stays unused, as it is in `multi_expand_page`.

## Findings

| source | as written | input that shows it | evidently intended | confidence | as-written member | corrected member |
|---|---|---|---|---|---|---|
| expand_page.py:49 | `expand_page_with_fill(source, width, height)` passes the source as the width, the width as the height and the height as the source path | width 2160, height 3060, sources `["sample/test_tiffs/a.tiff"]`: `os.path.splitext(3060)` raises TypeError | `expand_page_with_fill(width, height, source)` | high; not executed | ExpandPage.MultiExpandPageAsWritten | ExpandPage.MultiExpandPage |
| expand_page.py:91 | `with_extension('.tiff', input)` gets the directory path string where it expects a `{path, files}` dictionary, so `file_dict['path']` raises TypeError | any existing directory with valid dimensions, such as input `sample/test_tiffs/` with (2160, 3060) | filter the directory's listing for `.tiff` names and build one command per page | high; not executed | ExpandPage.ProcessArgs | ExpandPage.ProcessArgsFixed |

=== FILE: command.dfy ===
/** The helpers of the command layer: the validated `Resolution` value and
    the path and string functions every command uses. */
module Command {
  import opened Errors
  import opened PyValues
  import opened Paths

  // ---------------------------------------------------------------------
  // Resolution
  // ---------------------------------------------------------------------

  datatype Units = PixelsPerInch | PixelsPerCentimeter

  /** A pixel density. The factory below only builds ones whose magnitude
      is a positive int. */
  datatype Resolution = Resolution(resolution: int, units: Units)

  /** The unit names the factory accepts, and the unit each one names. */
  const ValidUnitStrings: map<string, Units> :=
    map["PixelsPerInch" := PixelsPerInch, "PixelsPerCentimeter" := PixelsPerCentimeter]

  const UnitMessage: string :=
    "'unit_str' must be one of: dict_keys(['PixelsPerInch', 'PixelsPerCentimeter'])"

  const MagnitudeMessage: string := "'resolution_val' must be a positive integer"

  /** `Resolution.make_resolution`: the unit string is checked first, then
      the type of the magnitude (exactly `int`, so not `bool`), then its
      sign. */
  function MakeResolution(resolutionVal: Scalar, unitStr: string): (r: Result<Resolution>)
    ensures unitStr !in ValidUnitStrings ==> r == Err(ValueError(UnitMessage))
    ensures unitStr in ValidUnitStrings && !resolutionVal.PyInt? ==> r == Err(TypeError)
    ensures unitStr in ValidUnitStrings && resolutionVal.PyInt? && resolutionVal.i <= 0 ==>
              r == Err(ValueError(MagnitudeMessage))
    ensures r.Ok? <==> unitStr in ValidUnitStrings && resolutionVal.PyInt? && resolutionVal.i > 0
    ensures r.Ok? ==> r.value.resolution > 0 && resolutionVal == PyInt(r.value.resolution)
    ensures r.Ok? ==> UnitStr(r.value) == unitStr
  {
    if unitStr !in ValidUnitStrings then Err(ValueError(UnitMessage))
    else if !resolutionVal.PyInt? then Err(TypeError)
    else if resolutionVal.i <= 0 then Err(ValueError(MagnitudeMessage))
    else Ok(Resolution(resolutionVal.i, ValidUnitStrings[unitStr]))
  }

  /** `Resolution.unit_str`: the name under which the unit is accepted. */
  function UnitStr(res: Resolution): (s: string)
    ensures s in ValidUnitStrings && ValidUnitStrings[s] == res.units
  {
    match res.units
    case PixelsPerInch => "PixelsPerInch"
    case PixelsPerCentimeter => "PixelsPerCentimeter"
  }

  /** Every valid resolution is rebuilt by the factory from its magnitude
      and its unit name. */
  lemma MakeResolutionOfUnitStr(res: Resolution)
    requires res.resolution > 0
    ensures MakeResolution(PyInt(res.resolution), UnitStr(res)) == Ok(res)
  {
  }

  // ---------------------------------------------------------------------
  // Paths and strings
  // ---------------------------------------------------------------------

  /** The subdirectory that receives output when none is given: a single
      relative path component with one trailing '/', so that `join`
      appends it to a directory instead of replacing the directory. */
  function DefaultSubdirectory(): (r: string)
    ensures |r| > 1 && r[0] != Sep && r[|r| - 1] == Sep
    ensures Free(r[..|r| - 1], Sep)
  {
    "__bookworm__/"
  }

  const TempMarker: string := ".bookworm."

  /** `temp_file_name`: `name.ext` becomes `name.bookworm.ext`. A name
      without an extension makes the source index an empty string. */
  function TempFileName(fileName: string): (r: Result<string>)
    ensures r.Err? <==> SplitExt(fileName).1 == ""
    ensures r.Err? ==> r.error == IndexError
    ensures r.Ok? ==> r.value == SplitExt(fileName).0 + TempMarker + SplitExt(fileName).1[1..]
  {
    var (file, ext) := SplitExt(fileName);
    if |ext| == 0 then Err(IndexError)
    else Ok(file + TempMarker + RemoveLeadingPeriod(ext))
  }

  function RemoveLeadingPeriod(ext: string): (r: string)
    requires |ext| > 0
  {
    if ext[0] == ExtSep then ext[1..] else ext
  }

  /** Stem and extension both survive: `stem.ext` becomes
      `stem.bookworm.ext`. */
  lemma TempFileNameOfStem(stem: string, ext: string)
    requires NamedStem(stem)
    requires Free(ext, ExtSep) && Free(ext, Sep)
    ensures TempFileName(stem + [ExtSep] + ext) == Ok(stem + TempMarker + ext)
  {
    SplitExtOfStem(stem, ext);
  }

  /** A plain file name in a directory: `dir/name.ext` becomes
      `dir/name.bookworm.ext`. */
  lemma TempFileNameInDirectory(path: string, temp: string, dir: string, name: string, ext: string)
    requires path == dir + name + [ExtSep] + ext
    requires temp == dir + name + TempMarker + ext
    requires |dir| == 0 || dir[|dir| - 1] == Sep
    requires |name| > 0 && Free(name, ExtSep) && Free(name, Sep)
    requires Free(ext, ExtSep) && Free(ext, Sep)
    ensures TempFileName(path) == Ok(temp)
  {
    var stem := dir + name;
    RFindAppend(dir, name, Sep);
    assert stem[|dir|] == name[0];
    assert NamedStem(stem);
    TempFileNameOfStem(stem, ext);
  }

  /** The temporary name keeps the extension of the original, and its root
      is the original root followed by `.bookworm`. */
  lemma TempFileNameSplits(fileName: string)
    requires SplitExt(fileName).1 != ""
    ensures SplitExt(TempFileName(fileName).value) ==
            (SplitExt(fileName).0 + ".bookworm", SplitExt(fileName).1)
  {
    var (root, ext) := SplitExt(fileName);
    SplitExtConcat(fileName);
    var stem := root + ".bookworm";
    var tail := ext[1..];
    assert stem[|stem| - 1] == 'm';
    assert RFind(stem, Sep) < |stem| - 1;
    assert NamedStem(stem);
    SplitExtOfStem(stem, tail);
    assert stem + [ExtSep] + tail == root + TempMarker + tail;
    assert [ExtSep] + tail == ext;
  }

  /** `temp_directory`: the directory of the file, joined with the default
      subdirectory. */
  function TempDirectory(fileName: string): (r: string)
    ensures r == Join(Dirname(fileName), DefaultSubdirectory())
    ensures EndsWith(r, DefaultSubdirectory())
  {
    var (filePath, _) := SplitExt(fileName);
    DirnameOfRoot(fileName);
    JoinEndsWith(Dirname(filePath), DefaultSubdirectory());
    Join(Dirname(filePath), DefaultSubdirectory())
  }

  /** For a file directly inside `dir/` (one trailing slash), the
      temporary directory is `dir/__bookworm__/`. */
  lemma TempDirectoryInDirectory(dir: string, name: string)
    requires |dir| >= 2 && dir[|dir| - 1] == Sep && dir[|dir| - 2] != Sep
    requires Free(name, Sep)
    ensures TempDirectory(dir + name) == dir + DefaultSubdirectory()
  {
    RFindAppend(dir, name, Sep);
    var p := dir + name;
    assert RFind(p, Sep) == |dir| - 1;
    assert p[..|dir|] == dir;
    assert dir[|dir| - 2] != Sep;
    assert !AllSeps(dir);
    var stripped := dir[..|dir| - 1];
    assert stripped[|stripped| - 1] != Sep;
    assert RStripSeps(stripped) == stripped;
    assert RStripSeps(dir) == stripped;
    assert Dirname(p) == stripped;
    var d := DefaultSubdirectory();
    assert d[0] != Sep;
    assert Join(stripped, d) == stripped + [Sep] + d;
    assert stripped + [Sep] == dir;
  }

  /** The argument of `with_extension`: a dictionary that should hold a
      `path` and a `files` entry. */
  datatype FileDict = FileDict(path: Option<string>, files: Option<seq<string>>)

  /** A directory path and the names of some of its files, in order. */
  datatype FileSet = FileSet(path: string, files: seq<string>)

  /** The extension the filter compares with: a leading '.' is added when
      missing. */
  function NormalizeExtension(extension: string): (e: string)
    requires |extension| > 0
    ensures |e| > 0 && e[0] == ExtSep
  {
    if extension[0] != ExtSep then [ExtSep] + extension else extension
  }

  /** The names whose `splitext` extension is exactly `ext`, in order. */
  function FilterByExtension(ext: string, files: seq<string>): seq<string> {
    if |files| == 0 then []
    else if SplitExt(files[0]).1 == ext then [files[0]] + FilterByExtension(ext, files[1..])
    else FilterByExtension(ext, files[1..])
  }

  /** `with_extension`: an empty extension makes the source index an empty
      string; otherwise a missing `path`, then a missing `files` entry, is a
      KeyError. */
  function WithExtension(extension: string, fileDict: FileDict): (r: Result<FileSet>)
    ensures |extension| == 0 ==> r == Err(IndexError)
    ensures |extension| > 0 && fileDict.path.None? ==> r == Err(KeyError("path"))
    ensures |extension| > 0 && fileDict.path.Some? && fileDict.files.None? ==> r == Err(KeyError("files"))
    ensures r.Ok? <==> |extension| > 0 && fileDict.path.Some? && fileDict.files.Some?
    ensures r.Ok? ==> r.value.path == fileDict.path.value
    ensures r.Ok? ==> Subsequence(r.value.files, fileDict.files.value)
    ensures r.Ok? ==> forall x ::
              multiset(r.value.files)[x] ==
              (if SplitExt(x).1 == NormalizeExtension(extension) then multiset(fileDict.files.value)[x] else 0)
  {
    if |extension| == 0 then Err(IndexError)
    else
      var ext := NormalizeExtension(extension);
      if fileDict.path.None? then Err(KeyError("path"))
      else if fileDict.files.None? then Err(KeyError("files"))
      else
        var files := fileDict.files.value;
        FilterIsSubsequence(ext, files);
        FilterCounts(ext, files);
        Ok(FileSet(fileDict.path.value, FilterByExtension(ext, files)))
  }

  /** `a` is `b` with some elements dropped, the rest in the same order. */
  predicate Subsequence<T(==)>(a: seq<T>, b: seq<T>)
    decreases |b|
  {
    if |a| == 0 then true
    else if |b| == 0 then false
    else (a[0] == b[0] && Subsequence(a[1..], b[1..])) || Subsequence(a, b[1..])
  }

  lemma {:induction false} FilterIsSubsequence(ext: string, files: seq<string>)
    ensures Subsequence(FilterByExtension(ext, files), files)
    decreases |files|
  {
    if |files| > 0 {
      FilterIsSubsequence(ext, files[1..]);
      var rest := FilterByExtension(ext, files[1..]);
      if SplitExt(files[0]).1 == ext {
        assert ([files[0]] + rest)[1..] == rest;
      }
    }
  }

  lemma {:induction false} FilterCounts(ext: string, files: seq<string>)
    ensures forall x :: multiset(FilterByExtension(ext, files))[x] ==
                        (if SplitExt(x).1 == ext then multiset(files)[x] else 0)
    decreases |files|
  {
    if |files| > 0 {
      FilterCounts(ext, files[1..]);
      assert files == [files[0]] + files[1..];
    }
  }

  /** With both entries present, a name is kept exactly when its extension
      is the normalised one. */
  lemma WithExtensionMembers(extension: string, path: string, files: seq<string>)
    requires |extension| > 0
    ensures WithExtension(extension, FileDict(Some(path), Some(files))).Ok?
    ensures forall name ::
              name in WithExtension(extension, FileDict(Some(path), Some(files))).value.files
              <==> name in files && SplitExt(name).1 == NormalizeExtension(extension)
  {
    var kept := WithExtension(extension, FileDict(Some(path), Some(files))).value.files;
    forall name
      ensures name in kept <==> name in files && SplitExt(name).1 == NormalizeExtension(extension)
    {
      assert name in kept <==> multiset(kept)[name] > 0;
      assert name in files <==> multiset(files)[name] > 0;
    }
  }

  /** The extension may be given with or without its leading '.'. */
  lemma WithExtensionNormalizes(extension: string, fileDict: FileDict)
    requires |extension| > 0 && extension[0] != ExtSep
    ensures WithExtension(extension, fileDict) == WithExtension([ExtSep] + extension, fileDict)
  {
  }

  /** `files_exist`: every listed file is among the existing files; the
      check stops at the first one that is missing. */
  method FilesExist(files: seq<string>, existing: set<string>) returns (ok: bool)
    ensures ok <==> forall i :: 0 <= i < |files| ==> files[i] in existing
  {
    for i := 0 to |files|
      invariant forall j :: 0 <= j < i ==> files[j] in existing
    {
      if files[i] !in existing {
        return false;
      }
    }
    return true;
  }

  /** `quoted_string`: a '"' is added at either end that lacks one. */
  function QuotedString(s: string): (r: string)
    requires |s| > 0
    ensures |r| > 0 && r[0] == '"' && r[|r| - 1] == '"'
    ensures |s| <= |r| <= |s| + 2
    ensures r[..|s|] == s || (|s| < |r| && r[1..|s| + 1] == s)
    ensures s[0] == '"' && s[|s| - 1] == '"' ==> r == s
    ensures |r| == |s| + (if s[0] == '"' then 0 else 1) + (if s[|s| - 1] == '"' then 0 else 1)
    ensures s[0] == '"' ==> r[..|s|] == s
  {
    var front := if s[0] != '"' then "\"" + s else s;
    if s[|s| - 1] != '"' then front + "\"" else front
  }

  /** Quoting twice is quoting once. */
  lemma QuotedStringIdempotent(s: string)
    requires |s| > 0
    ensures QuotedString(QuotedString(s)) == QuotedString(s)
  {
  }
}

=== FILE: decimal.dfy ===
/** Decimal rendering of integers, as Python's `str(int)` and `'{}'.format`
    produce it, and the parser that inverts it. */
module Decimal {
  import opened Errors

  predicate IsDigit(c: char) {
    '0' <= c <= '9'
  }

  predicate AllDigits(s: string) {
    forall i :: 0 <= i < |s| ==> IsDigit(s[i])
  }

  function DigitChar(d: nat): (c: char)
    requires d < 10
    ensures IsDigit(c)
  {
    (('0' as int) + d) as char
  }

  function DigitValue(c: char): (d: nat)
    requires IsDigit(c)
    ensures d < 10
    ensures DigitChar(d) == c
  {
    (c as int) - ('0' as int)
  }

  /** The shortest decimal numeral of `n`: no sign, no leading zero. */
  function NatToString(n: nat): (s: string)
    ensures |s| > 0 && AllDigits(s)
    ensures |s| > 1 ==> s[0] != '0'
  {
    if n < 10 then [DigitChar(n)] else NatToString(n / 10) + [DigitChar(n % 10)]
  }

  /** The value of a string of digits, most significant first. */
  function DigitsValue(s: string): nat
    requires AllDigits(s)
  {
    if |s| == 0 then 0 else 10 * DigitsValue(s[..|s| - 1]) + DigitValue(s[|s| - 1])
  }

  function ParseNat(s: string): Option<nat> {
    if |s| > 0 && AllDigits(s) then Some(DigitsValue(s)) else None
  }

  /** Python's `str` of an int: a minus sign before negative numbers. */
  function IntToString(i: int): (s: string)
    ensures |s| > 0
    ensures s[0] == '-' <==> i < 0
    ensures i >= 0 ==> AllDigits(s)
    ensures i < 0 ==> AllDigits(s[1..])
  {
    if i < 0 then "-" + NatToString(-i) else NatToString(i)
  }

  function ParseInt(s: string): Option<int> {
    if |s| > 0 && s[0] == '-' then
      match ParseNat(s[1..])
      case Some(n) => Some(0 - n as int)
      case None => None
    else
      match ParseNat(s)
      case Some(n) => Some(n)
      case None => None
  }

  /** Reading back the numeral of `n` gives `n`. */
  lemma {:induction false} ParseNatToString(n: nat)
    ensures ParseNat(NatToString(n)) == Some(n)
  {
    if n >= 10 {
      ParseNatToString(n / 10);
      var s := NatToString(n);
      assert s[..|s| - 1] == NatToString(n / 10);
      assert DigitValue(s[|s| - 1]) == n % 10;
      assert DigitsValue(s) == 10 * (n / 10) + n % 10;
    }
  }

  /** Reading back `str(i)` gives `i`, for every integer. */
  lemma ParseIntToString(i: int)
    ensures ParseInt(IntToString(i)) == Some(i)
  {
    if i < 0 {
      ParseNatToString(-i);
      assert IntToString(i)[1..] == NatToString(-i);
    } else {
      ParseNatToString(i);
    }
  }
}

=== FILE: errors.dfy ===
/** The exceptions the command layer raises, and the failure-compatible
    wrappers the model returns instead of raising them. */
module Errors {

  /** The Python exception classes that can escape the modelled functions.
      Only these payloads the source chooses are kept: the missing key,
      and the messages the source formats for ValueError and
      FileNotFoundError. TypeError carries none, so the message
      `make_resolution` gives it is dropped. */
  datatype Error =
    | KeyError(key: string)
    | IndexError
    | TypeError
    | ValueError(message: string)
    | FileNotFoundError(message: string)

  /** An optional value: a dictionary entry that may be absent. */
  datatype Option<+T> = None | Some(value: T)

  /** Either the value a Python call returns or the exception it raises. */
  datatype Result<+T> = Ok(value: T) | Err(error: Error) {

    predicate IsFailure() {
      Err?
    }

    function PropagateFailure<U>(): Result<U>
      requires Err?
    {
      Err(error)
    }

    function Extract(): T
      requires Ok?
    {
      value
    }
  }
}

=== FILE: expand_page.dfy ===
/** The page-expanding command: how it renders the `convert` invocation,
    how single and batch commands are made, and how the argument
    dictionary is turned into one. */
module ExpandPage {
  import opened Errors
  import opened PyValues
  import opened Paths
  import Decimal
  import Command

  // ---------------------------------------------------------------------
  // The command
  // ---------------------------------------------------------------------

  /** An `ExpandPageWithFill` object: the executable, its three flags, and
      the operands. Width and height are stored as given. */
  datatype ExpandPageWithFill = ExpandPageWithFill(
    command: string,
    extent: string,
    background: string,
    gravity: string,
    source: string,
    target: string,
    width: Scalar,
    height: Scalar)

  const Executable: string := "convert"
  const ExtentFlag: string := "-extent "
  const BackgroundFlag: string := "-background white"
  const GravityFlag: string := "-gravity Center"

  /** `'{}x{}'.format(width, height)`. */
  function Geometry(width: Scalar, height: Scalar): string {
    Str(width) + "x" + Str(height)
  }

  /** The first index of `c` in `s`, or -1 (`str.find`). */
  function Find(s: string, c: char): (i: int)
    ensures -1 <= i < |s|
    ensures i >= 0 ==> s[i] == c
    ensures forall j :: 0 <= j < |s| && (i < 0 || j < i) ==> s[j] != c
  {
    if |s| == 0 then -1
    else if s[0] == c then 0
    else var k := Find(s[1..], c); if k < 0 then -1 else k + 1
  }

  /** Reads the width and height back out of an `-extent WxH` token. */
  function ParseExtent(token: string): Option<(int, int)> {
    if |token| >= |ExtentFlag| && token[..|ExtentFlag|] == ExtentFlag then
      var rest := token[|ExtentFlag|..];
      var x := Find(rest, 'x');
      if x < 0 then None
      else
        match (Decimal.ParseInt(rest[..x]), Decimal.ParseInt(rest[x + 1..]))
        case (Some(w), Some(h)) => Some((w, h))
        case _ => None
    else None
  }

  /** `'"{}"'.format(s)`: always wraps, even a string already quoted. */
  function Quote(s: string): string {
    "\"" + s + "\""
  }

  /** Strips one pair of surrounding double quotes. */
  function Unquote(q: string): Option<string> {
    if |q| >= 2 && q[0] == '"' && q[|q| - 1] == '"' then Some(q[1..|q| - 1]) else None
  }

  /** `ExpandPageWithFill.__init__`. For integer dimensions the extent
      token reads back as exactly the width and height given. */
  function Construct(source: string, target: string, width: Scalar, height: Scalar): (c: ExpandPageWithFill)
    ensures c.source == source && c.target == target && c.width == width && c.height == height
    ensures width.PyInt? && height.PyInt? ==> ParseExtent(c.extent) == Some((width.i, height.i))
  {
    ExtentRoundTrip(width, height);
    ExpandPageWithFill(Executable, ExtentFlag + Geometry(width, height), BackgroundFlag,
                       GravityFlag, source, target, width, height)
  }

  /** The extent token of integer dimensions reads back as those
      dimensions. */
  lemma ExtentRoundTrip(width: Scalar, height: Scalar)
    ensures width.PyInt? && height.PyInt? ==>
              ParseExtent(ExtentFlag + Geometry(width, height)) == Some((width.i, height.i))
  {
    if width.PyInt? && height.PyInt? {
      ExtentRoundTripInt(width.i, height.i);
    }
  }

  lemma ExtentRoundTripInt(w: int, h: int)
    ensures ParseExtent(ExtentFlag + Geometry(PyInt(w), PyInt(h))) == Some((w, h))
  {
    var a, b := Decimal.IntToString(w), Decimal.IntToString(h);
    IntToStringFree(w);
    assert ExtentFlag + Geometry(PyInt(w), PyInt(h)) == ExtentFlag + (a + "x" + b);
    ParseExtentSplits(a, b);
    Decimal.ParseIntToString(w);
    Decimal.ParseIntToString(h);
  }

  /** A decimal integer contains no `x`. */
  lemma IntToStringFree(i: int)
    ensures Free(Decimal.IntToString(i), 'x')
  {
    var a := Decimal.IntToString(i);
    forall j | 0 <= j < |a| ensures a[j] != 'x' {
      if i < 0 && j > 0 {
        assert a[1..][j - 1] == a[j];
      }
    }
  }

  /** An extent token splits at its first `x`. */
  lemma ParseExtentSplits(a: string, b: string)
    requires Free(a, 'x')
    ensures ParseExtent(ExtentFlag + (a + "x" + b)) ==
              match (Decimal.ParseInt(a), Decimal.ParseInt(b))
              case (Some(w), Some(h)) => Some((w, h))
              case _ => None
  {
    var token := ExtentFlag + (a + "x" + b);
    var rest := a + "x" + b;
    assert token[..|ExtentFlag|] == ExtentFlag;
    assert token[|ExtentFlag|..] == rest;
    assert rest[|a|] == 'x';
    assert Find(rest, 'x') == |a|;
    assert rest[..|a|] == a;
    assert rest[|a| + 1..] == b;
  }

  /** `as_python_subprocess`: six argv tokens in the order `convert`
      requires; the two operands are the quoted source and target. */
  function AsPythonSubprocess(c: ExpandPageWithFill): (argv: seq<string>)
    ensures |argv| == 6
    ensures argv[..4] == [c.command, c.extent, c.background, c.gravity]
    ensures Unquote(argv[4]) == Some(c.source) && Unquote(argv[5]) == Some(c.target)
  {
    [c.command, c.extent, c.background, c.gravity, Quote(c.source), Quote(c.target)]
  }

  /** `' '.join(words)`. */
  function JoinWords(words: seq<string>): string {
    if |words| == 0 then ""
    else if |words| == 1 then words[0]
    else words[0] + " " + JoinWords(words[1..])
  }

  /** `as_terminal_command`: the first five argv tokens separated by single
      spaces, then a space and the quoted target with the geometry in
      brackets. */
  function AsTerminalCommand(c: ExpandPageWithFill): (s: string)
    ensures s == JoinWords(AsPythonSubprocess(c)[..5]) + " " + AsPythonSubprocess(c)[5]
                 + "[" + Geometry(c.width, c.height) + "]"
  {
    var quotedSource := Quote(c.source);
    var quotedTarget := Quote(c.target);
    var finalArg := quotedTarget + "[" + Geometry(c.width, c.height) + "]";
    JoinFiveWords(c.command, c.extent, c.background, c.gravity, quotedSource);
    assert AsPythonSubprocess(c)[..5] == [c.command, c.extent, c.background, c.gravity, quotedSource];
    c.command + " " + c.extent + " " + c.background + " " + c.gravity + " " + quotedSource + " " + finalArg
  }

  lemma JoinFiveWords(a: string, b: string, c: string, d: string, e: string)
    ensures JoinWords([a, b, c, d, e]) == a + " " + b + " " + c + " " + d + " " + e
  {
    assert [a, b, c, d, e][1..] == [b, c, d, e];
    assert [b, c, d, e][1..] == [c, d, e];
    assert [c, d, e][1..] == [d, e];
    assert [d, e][1..] == [e];
    assert JoinWords([d, e]) == d + " " + e;
    assert JoinWords([c, d, e]) == c + " " + (d + " " + e);
    assert JoinWords([b, c, d, e]) == b + " " + (c + " " + (d + " " + e));
  }

  /** A string that differs from `prefix` at some shared position does not
      start with it. */
  lemma DiffersAt(s: string, prefix: string, k: nat)
    requires k < |s| && k < |prefix| && s[k] != prefix[k]
    ensures !StartsWith(s, prefix)
  {
    if |prefix| <= |s| {
      assert s[..|prefix|][k] == s[k];
    }
  }

  /** The six argv tokens of a constructed command, spelled out. */
  lemma ArgvLiteral(source: string, target: string, width: Scalar, height: Scalar)
    ensures AsPythonSubprocess(Construct(source, target, width, height))
              == [Executable, ExtentFlag + Geometry(width, height), BackgroundFlag, GravityFlag,
                  Quote(source), Quote(target)]
  {
  }

  /** Of `convert`, an extent token, the fill and gravity flags and two
      quoted operands, only the extent token starts with the extent flag. */
  lemma OnlyExtentToken(argv: seq<string>)
    requires |argv| == 6 && argv[0] == Executable && argv[2] == BackgroundFlag && argv[3] == GravityFlag
    requires |argv[4]| > 0 && argv[4][0] == '"' && |argv[5]| > 0 && argv[5][0] == '"'
    ensures forall i :: 0 <= i < 6 && i != 1 ==> !StartsWith(argv[i], ExtentFlag)
  {
    DiffersAt(argv[0], ExtentFlag, 0);
    DiffersAt(argv[2], ExtentFlag, 1);
    DiffersAt(argv[3], ExtentFlag, 1);
    DiffersAt(argv[4], ExtentFlag, 0);
    DiffersAt(argv[5], ExtentFlag, 0);
  }

  /** The argv of a constructed command: `convert`, one extent token that
      carries the dimensions, the fixed fill and gravity flags, and the two
      operands; no other token looks like an extent flag. */
  lemma ArgvOfConstruct(source: string, target: string, width: Scalar, height: Scalar)
    ensures var argv := AsPythonSubprocess(Construct(source, target, width, height));
      && argv[0] == Executable
      && argv[1] == ExtentFlag + Geometry(width, height)
      && argv[2] == BackgroundFlag
      && argv[3] == GravityFlag
      && Unquote(argv[4]) == Some(source)
      && Unquote(argv[5]) == Some(target)
      && (forall i :: 0 <= i < 6 && i != 1 ==> !StartsWith(argv[i], ExtentFlag))
  {
    ArgvLiteral(source, target, width, height);
    OnlyExtentToken(AsPythonSubprocess(Construct(source, target, width, height)));
  }

  // ---------------------------------------------------------------------
  // Making commands
  // ---------------------------------------------------------------------

  /** `expand_page_with_fill`: an empty target is replaced by the temporary
      name of the source; any other target is used verbatim. */
  function MakeExpandPage(width: Scalar, height: Scalar, source: string, target: string)
    : (r: Result<ExpandPageWithFill>)
    ensures target != "" ==> r == Ok(Construct(source, target, width, height))
    ensures target == "" ==> r.Ok? == Command.TempFileName(source).Ok?
    ensures target == "" && r.Ok? ==> r.value.target == Command.TempFileName(source).value
    ensures r.Err? ==> r.error == IndexError
    ensures r.Ok? ==> r.value.source == source && r.value.width == width && r.value.height == height
    ensures r.Ok? ==> r.value == Construct(source, r.value.target, width, height)
  {
    if target == "" then
      var newTarget :- Command.TempFileName(source);
      Ok(Construct(source, newTarget, width, height))
    else
      Ok(Construct(source, target, width, height))
  }

  /** The page of the test suite: with no target, `sample/sample1.tiff`
      is expanded into `sample/sample1.bookworm.tiff`. */
  lemma MakeExpandPageSample()
    ensures MakeExpandPage(PyInt(2160), PyInt(3060), "sample/sample1.tiff", "")
         == Ok(Construct("sample/sample1.tiff", "sample/sample1.bookworm.tiff", PyInt(2160), PyInt(3060)))
  {
    SampleTempFileName();
  }

  lemma SampleTempFileName()
    ensures Command.TempFileName("sample/sample1.tiff") == Ok("sample/sample1.bookworm.tiff")
  {
    Command.TempFileNameInDirectory("sample/sample1.tiff", "sample/sample1.bookworm.tiff", "sample/", "sample1", "tiff");
  }

  /** The set of distinct strings in `s`. */
  function Elements(s: seq<string>): set<string> {
    set x | x in s
  }

  lemma ElementsCons(s: seq<string>)
    requires |s| > 0
    ensures Elements(s) == {s[0]} + Elements(s[1..])
  {
    assert s == [s[0]] + s[1..];
  }

  /** Every command in `m` is the `convert` command for its key, writing
      to the key's temporary name. */
  predicate TempCommands(m: map<string, ExpandPageWithFill>, width: Scalar, height: Scalar) {
    forall s :: s in m ==>
      && Command.TempFileName(s) == Ok(m[s].target)
      && m[s] == Construct(s, m[s].target, width, height)
  }

  /** Adding a source's command to commands that each write to their
      key's temporary name keeps that so. */
  lemma InsertTempCommand(rest: map<string, ExpandPageWithFill>, source: string,
                          action: ExpandPageWithFill, width: Scalar, height: Scalar)
    requires TempCommands(rest, width, height)
    requires Command.TempFileName(source) == Ok(action.target)
    requires action == Construct(source, action.target, width, height)
    ensures TempCommands(rest[source := action], width, height)
  {
    var all := rest[source := action];
    forall s | s in all
      ensures Command.TempFileName(s) == Ok(all[s].target)
      ensures all[s] == Construct(s, all[s].target, width, height)
    {
      if s != source {
        assert all[s] == rest[s];
      }
    }
  }

  /** Every source has an extension exactly when the first one does and
      every later one does. */
  lemma ExtensionsCons(sources: seq<string>)
    requires |sources| > 0
    ensures (forall i :: 0 <= i < |sources| ==> SplitExt(sources[i]).1 != "")
            <==> SplitExt(sources[0]).1 != ""
                 && forall i :: 0 <= i < |sources[1..]| ==> SplitExt(sources[1..][i]).1 != ""
  {
    if SplitExt(sources[0]).1 != "" && forall i :: 0 <= i < |sources[1..]| ==> SplitExt(sources[1..][i]).1 != "" {
      forall i | 0 <= i < |sources| ensures SplitExt(sources[i]).1 != "" {
        if i > 0 {
          assert sources[i] == sources[1..][i - 1];
        }
      }
    }
  }

  /** `multi_expand_page` as intended: one command per distinct source,
      each writing to the temporary name of its source. The target
      argument is not used, as in the source. */
  function MultiExpandPage(width: Scalar, height: Scalar, sources: seq<string>, target: string)
    : (r: Result<map<string, ExpandPageWithFill>>)
    ensures r.Ok? <==> forall i :: 0 <= i < |sources| ==> SplitExt(sources[i]).1 != ""
    ensures r.Err? ==> r.error == IndexError
    ensures r.Ok? ==> r.value.Keys == Elements(sources)
    ensures r.Ok? ==> TempCommands(r.value, width, height)
  {
    if |sources| == 0 then Ok(map[])
    else
      ExtensionsCons(sources);
      var action :- MakeExpandPage(width, height, sources[0], "");
      var rest :- MultiExpandPage(width, height, sources[1..], target);
      ElementsCons(sources);
      InsertTempCommand(rest, sources[0], action, width, height);
      Ok(rest[sources[0] := action])
  }

  /** `multi_expand_page` as written: it calls
      `expand_page_with_fill(source, width, height)`, so the source lands in
      the width, the width in the height and the height in the source. A
      height that is not a string makes `os.path.splitext` raise TypeError. */
  function MultiExpandPageAsWritten(width: Scalar, height: Scalar, sources: seq<string>, target: string)
    : (r: Result<map<string, ExpandPageWithFill>>)
    ensures |sources| > 0 && !height.PyStr? ==> r == Err(TypeError)
    ensures r.Ok? ==> r.value.Keys == Elements(sources)
    ensures r.Ok? ==> forall s :: s in r.value ==>
              r.value[s].width == PyStr(s) && r.value[s].height == width
  {
    if |sources| == 0 then Ok(map[])
    else
      var action :- if height.PyStr? then MakeExpandPage(PyStr(sources[0]), width, height.s, "")
                    else Err(TypeError);
      var rest :- MultiExpandPageAsWritten(width, height, sources[1..], target);
      ElementsCons(sources);
      Ok(rest[sources[0] := action])
  }

  /** The test suite's dimensions and one TIFF page: as written the batch
      raises TypeError, as intended it holds one command for the page. */
  lemma MultiExpandPageArgumentOrder()
    ensures MultiExpandPageAsWritten(PyInt(2160), PyInt(3060), ["sample/test_tiffs/a.tiff"], "") == Err(TypeError)
    ensures MultiExpandPage(PyInt(2160), PyInt(3060), ["sample/test_tiffs/a.tiff"], "").Ok?
  {
    Command.TempFileNameInDirectory("sample/test_tiffs/a.tiff", "sample/test_tiffs/a.bookworm.tiff", "sample/test_tiffs/", "a", "tiff");
  }

  // ---------------------------------------------------------------------
  // The argument processor
  // ---------------------------------------------------------------------

  /** The argument dictionary: `input` and `dimensions` are required,
      `output` is optional. */
  datatype ArgDict = ArgDict(input: Option<string>, output: Option<string>, dimensions: Option<Value>)

  /** What `os.path.isfile` and `os.path.isdir` answer yes to, and (for the
      corrected directory branch) what each directory lists. */
  datatype FileSystem = FileSystem(files: set<string>, dirs: set<string>, entries: map<string, seq<string>>)

  /** What the corrected processor returns: one command for a file, one
      command per page for a directory. */
  datatype Action = Single(command: ExpandPageWithFill) | Batch(commands: map<string, ExpandPageWithFill>)

  function DimensionMessage(width: Scalar, height: Scalar): string {
    "Dimensions must be positive integers: Got " + Geometry(width, height)
  }

  function NotFoundMessage(input: string): string {
    "File or directory does not exist: " + input
  }

  /** A value Python compares with 0 as a number. */
  predicate Numeric(v: Scalar) {
    v.PyInt? || v.PyBool?
  }

  /** A number greater than zero (`True` counts as 1). */
  predicate Positive(v: Scalar) {
    (v.PyInt? && v.i > 0) || v == PyBool(true)
  }

  /** The dimension check of `process_args`: take `dimensions[0]` and
      `dimensions[1]`, then reject `width <= 0 or height <= 0`. The
      comparison short-circuits, so a non-positive width is a ValueError
      whatever the height is. */
  function CheckDimensions(dims: Value): (r: Result<(Scalar, Scalar)>)
    ensures Subscript(dims, 0).Err? ==> r == Err(Subscript(dims, 0).error)
    ensures Subscript(dims, 0).Ok? && Subscript(dims, 1).Err? ==> r == Err(Subscript(dims, 1).error)
    ensures r.Ok? <==> Subscript(dims, 0).Ok? && Subscript(dims, 1).Ok?
                       && Positive(Subscript(dims, 0).value) && Positive(Subscript(dims, 1).value)
    ensures r.Ok? ==> r.value == (Subscript(dims, 0).value, Subscript(dims, 1).value)
    ensures Subscript(dims, 0).Ok? && Subscript(dims, 1).Ok? ==>
              var (w, h) := (Subscript(dims, 0).value, Subscript(dims, 1).value);
              && (!Numeric(w) ==> r == Err(TypeError))
              && (Numeric(w) && !Positive(w) ==> r == Err(ValueError(DimensionMessage(w, h))))
              && (Positive(w) && !Numeric(h) ==> r == Err(TypeError))
              && (Positive(w) && Numeric(h) && !Positive(h) ==> r == Err(ValueError(DimensionMessage(w, h))))
  {
    var width :- Subscript(dims, 0);
    var height :- Subscript(dims, 1);
    var widthBad :- AtMostZero(width);
    if widthBad then Err(ValueError(DimensionMessage(width, height)))
    else
      var heightBad :- AtMostZero(height);
      if heightBad then Err(ValueError(DimensionMessage(width, height)))
      else Ok((width, height))
  }

  /** `process_args`, as written. The keys are read first, then the
      dimensions are checked, and only then is the file system asked about
      the input. A directory input always fails with TypeError, because the
      directory branch passes the path string where `with_extension`
      expects a dictionary. */
  function ProcessArgs(args: ArgDict, fs: FileSystem): (r: Result<ExpandPageWithFill>)
    ensures args.input.None? ==> r == Err(KeyError("input"))
    ensures args.input.Some? && args.dimensions.None? ==> r == Err(KeyError("dimensions"))
    ensures args.input.Some? && args.dimensions.Some? && CheckDimensions(args.dimensions.value).Err? ==>
              r == Err(CheckDimensions(args.dimensions.value).error)
    ensures args.input.Some? && args.dimensions.Some? && CheckDimensions(args.dimensions.value).Ok? ==>
              && (args.input.value !in fs.files && args.input.value !in fs.dirs ==>
                    r == Err(FileNotFoundError(NotFoundMessage(args.input.value))))
              && (args.input.value !in fs.files && args.input.value in fs.dirs ==> r == Err(TypeError))
              && (var target := if args.output.Some? then args.output.value else args.input.value;
                  args.input.value in fs.files && target != "" ==> r.Ok?)
              && (var target := if args.output.Some? then args.output.value else args.input.value;
                  args.input.value in fs.files && target == "" ==>
                    && (r.Ok? <==> Command.TempFileName(args.input.value).Ok?)
                    && (r.Err? ==> r.error == IndexError))
    ensures r.Ok? ==>
              && args.input.Some? && args.input.value in fs.files
              && args.dimensions.Some?
              && CheckDimensions(args.dimensions.value) == Ok((r.value.width, r.value.height))
              && r.value.source == args.input.value
              && (args.output.None? ==> r.value.target == args.input.value)
              && (args.output.Some? && args.output.value != "" ==> r.value.target == args.output.value)
              && (args.output == Some("") ==> Command.TempFileName(args.input.value) == Ok(r.value.target))
    ensures r.Ok? ==> r.value == Construct(args.input.value, r.value.target, r.value.width, r.value.height)
  {
    if args.input.None? then Err(KeyError("input"))
    else if args.dimensions.None? then Err(KeyError("dimensions"))
    else
      var input := args.input.value;
      var dims :- CheckDimensions(args.dimensions.value);
      if input in fs.files then
        var output := if args.output.Some? then args.output.value else input;
        MakeExpandPage(dims.0, dims.1, input, output)
      else if input in fs.dirs then
        Err(TypeError)
      else
        Err(FileNotFoundError(NotFoundMessage(input)))
  }

  /** The dimensions are checked before the file system is consulted: an
      argument dictionary that fails the key or dimension checks fails the
      same way whatever exists on disk. */
  lemma ProcessArgsValidatesFirst(args: ArgDict, fs1: FileSystem, fs2: FileSystem)
    requires args.input.None? || args.dimensions.None? || CheckDimensions(args.dimensions.value).Err?
    ensures ProcessArgs(args, fs1).Err?
    ensures ProcessArgs(args, fs1) == ProcessArgs(args, fs2)
  {
  }

  /** A file input with positive integer dimensions and no `output` entry
      becomes a command that writes back onto the input file. */
  lemma ProcessArgsFileWithoutOutput(input: string, w: int, h: int, fs: FileSystem)
    requires input in fs.files && input != ""
    requires w > 0 && h > 0
    ensures ProcessArgs(ArgDict(Some(input), None, Some(Items([PyInt(w), PyInt(h)]))), fs)
            == Ok(Construct(input, input, PyInt(w), PyInt(h)))
  {
  }

  /** A dimension that is not a number, after a valid width, is a
      TypeError whatever the input is. */
  lemma ProcessArgsRejectsTextHeight(input: string, w: int, height: string, fs: FileSystem)
    requires w > 0
    ensures ProcessArgs(ArgDict(Some(input), None, Some(Items([PyInt(w), PyStr(height)]))), fs)
            == Err(TypeError)
  {
  }

  /** The full paths of the names listed in a directory. */
  function JoinAll(dir: string, names: seq<string>): seq<string>
  {
    seq(|names|, i requires 0 <= i < |names| => Join(dir, names[i]))
  }

  const PageExtension: string := ".tiff"

  /** Both keys are present, the dimensions pass, and the input is a
      directory but not a file: the case the two processors disagree on. */
  predicate DirectoryInput(args: ArgDict, fs: FileSystem) {
    && args.input.Some? && args.dimensions.Some?
    && CheckDimensions(args.dimensions.value).Ok?
    && args.input.value !in fs.files && args.input.value in fs.dirs
  }

  /** `process_args` with its directory branch doing what it evidently
      means to: list the directory, keep the `.tiff` names, and make one
      command per page with the given dimensions. File inputs and every
      error are handled as in `ProcessArgs`. */
  function ProcessArgsFixed(args: ArgDict, fs: FileSystem): (r: Result<Action>)
    ensures ProcessArgs(args, fs).Ok? ==> r == Ok(Single(ProcessArgs(args, fs).value))
    ensures !DirectoryInput(args, fs) ==> (r.Ok? <==> ProcessArgs(args, fs).Ok?)
    ensures !DirectoryInput(args, fs) && r.Err? ==> ProcessArgs(args, fs) == Err(r.error)
    ensures r.Ok? && r.value.Batch? ==>
              && args.input.Some? && args.input.value !in fs.files && args.input.value in fs.dirs
              && args.dimensions.Some?
              && (forall s :: s in r.value.commands ==>
                    && r.value.commands[s].source == s
                    && CheckDimensions(args.dimensions.value)
                         == Ok((r.value.commands[s].width, r.value.commands[s].height)))
    ensures r.Ok? && r.value.Batch? ==>
              var d := CheckDimensions(args.dimensions.value).value;
              TempCommands(r.value.commands, d.0, d.1)
  {
    if args.input.None? then Err(KeyError("input"))
    else if args.dimensions.None? then Err(KeyError("dimensions"))
    else
      var input := args.input.value;
      var dims :- CheckDimensions(args.dimensions.value);
      if input in fs.files then
        var output := if args.output.Some? then args.output.value else input;
        var action :- MakeExpandPage(dims.0, dims.1, input, output);
        Ok(Single(action))
      else if input in fs.dirs then
        var output := if args.output.Some? then args.output.value else Join(input, Command.DefaultSubdirectory());
        var listing := if input in fs.entries then fs.entries[input] else [];
        var found := Command.WithExtension(PageExtension, Command.FileDict(Some(input), Some(listing))).value;
        var batch :- MultiExpandPage(dims.0, dims.1, JoinAll(found.path, found.files), output);
        Ok(Batch(batch))
      else
        Err(FileNotFoundError(NotFoundMessage(input)))
  }

  /** For an existing directory and valid dimensions, the corrected
      processor succeeds with exactly one command per `.tiff` name in the
      listing, keyed by its full path. */
  lemma ProcessArgsFixedDirectory(args: ArgDict, fs: FileSystem)
    requires DirectoryInput(args, fs)
    ensures ProcessArgsFixed(args, fs).Ok? && ProcessArgsFixed(args, fs).value.Batch?
    ensures ProcessArgsFixed(args, fs).value.commands.Keys
            == PagePaths(args.input.value, if args.input.value in fs.entries then fs.entries[args.input.value] else [])
  {
    var input := args.input.value;
    var listing := if input in fs.entries then fs.entries[input] else [];
    var names := Command.WithExtension(PageExtension, Command.FileDict(Some(input), Some(listing))).value.files;
    Command.WithExtensionMembers(PageExtension, input, listing);
    SourcesArePages(input, listing, names);
  }

  /** The full paths of the `.tiff` names in a listing. */
  function PagePaths(dir: string, listing: seq<string>): set<string> {
    set name | name in listing && SplitExt(name).1 == PageExtension :: Join(dir, name)
  }

  lemma SourcesArePages(dir: string, listing: seq<string>, names: seq<string>)
    requires forall name :: name in names <==> name in listing && SplitExt(name).1 == PageExtension
    ensures forall i :: 0 <= i < |names| ==> SplitExt(JoinAll(dir, names)[i]).1 != ""
    ensures Elements(JoinAll(dir, names)) == PagePaths(dir, listing)
  {
    var sources := JoinAll(dir, names);
    forall i | 0 <= i < |names| ensures SplitExt(sources[i]).1 != "" {
      SplitExtOfJoin(dir, names[i]);
      assert names[i] in names;
    }
    forall s | s in Elements(sources) ensures s in PagePaths(dir, listing) {
      var i :| 0 <= i < |sources| && sources[i] == s;
      assert names[i] in names;
    }
    forall s | s in PagePaths(dir, listing) ensures s in Elements(sources) {
      var name :| name in listing && SplitExt(name).1 == PageExtension && s == Join(dir, name);
      var i :| 0 <= i < |names| && names[i] == name;
      assert sources[i] == s;
    }
  }
}

=== FILE: paths.dfy ===
/** The parts of Python's `posixpath` the command layer relies on:
    `splitext`, `dirname` and two-argument `join`, with '/' as the only
    separator and '.' as the extension separator. */
module Paths {

  const Sep: char := '/'
  const ExtSep: char := '.'

  /** `s.rfind(c)`: the index of the last `c` in `s`, or -1. */
  function RFind(s: string, c: char): (i: int)
    ensures -1 <= i < |s|
    ensures i >= 0 ==> s[i] == c
    ensures forall j :: i < j < |s| ==> s[j] != c
  {
    if |s| == 0 then -1
    else if s[|s| - 1] == c then |s| - 1
    else RFind(s[..|s| - 1], c)
  }

  /** Some character of `s[lo..hi]` is not a '.'. */
  predicate HasNonDot(s: string, lo: int, hi: int)
    requires 0 <= lo && hi <= |s|
  {
    !(forall k :: lo <= k < hi ==> s[k] == ExtSep)
  }

  /** `os.path.splitext(p)`: the extension starts at the last '.' of the
      final path component, unless everything before that '.' in the
      component is a '.' too (leading dots do not start an extension). */
  function SplitExt(p: string): (string, string) {
    var sepIndex := RFind(p, Sep);
    var dotIndex := RFind(p, ExtSep);
    if dotIndex > sepIndex && HasNonDot(p, sepIndex + 1, dotIndex) then
      (p[..dotIndex], p[dotIndex..])
    else
      (p, "")
  }

  /** The final component of `s` (after its last '/') has a character other
      than '.': such a stem keeps any extension appended to it. */
  predicate NamedStem(s: string) {
    HasNonDot(s, RFind(s, Sep) + 1, |s|)
  }

  /** `s` does not contain `c`. */
  predicate Free(s: string, c: char) {
    forall i :: 0 <= i < |s| ==> s[i] != c
  }

  predicate StartsWith(s: string, prefix: string) {
    |prefix| <= |s| && s[..|prefix|] == prefix
  }

  predicate EndsWith(s: string, suffix: string) {
    |suffix| <= |s| && s[|s| - |suffix|..] == suffix
  }

  predicate AllSeps(s: string) {
    forall i :: 0 <= i < |s| ==> s[i] == Sep
  }

  /** `s.rstrip('/')`. */
  function RStripSeps(s: string): (r: string)
    ensures |r| <= |s| && r == s[..|r|]
  {
    if |s| > 0 && s[|s| - 1] == Sep then RStripSeps(s[..|s| - 1]) else s
  }

  /** `os.path.dirname(p)`: everything up to the last '/', with trailing
      slashes removed unless the head consists of slashes only. */
  function Dirname(p: string): string {
    var head := p[..RFind(p, Sep) + 1];
    if |head| > 0 && !AllSeps(head) then RStripSeps(head) else head
  }

  /** `os.path.join(a, b)`. */
  function Join(a: string, b: string): string {
    if |b| > 0 && b[0] == Sep then b
    else if |a| == 0 || a[|a| - 1] == Sep then a + b
    else a + [Sep] + b
  }

  /** The root and the extension put back together give the path. */
  lemma SplitExtConcat(p: string)
    ensures SplitExt(p).0 + SplitExt(p).1 == p
    ensures SplitExt(p).1 == "" || (SplitExt(p).1[0] == ExtSep && Free(SplitExt(p).1[1..], ExtSep) && Free(SplitExt(p).1, Sep))
  {
  }

  /** A stem whose final component is named, followed by '.' and an
      extension without '.' or '/', splits exactly there. */
  lemma SplitExtOfStem(stem: string, ext: string)
    requires NamedStem(stem)
    requires Free(ext, ExtSep) && Free(ext, Sep)
    ensures SplitExt(stem + [ExtSep] + ext) == (stem, [ExtSep] + ext)
  {
    var p := stem + [ExtSep] + ext;
    RFindAppend(stem + [ExtSep], ext, ExtSep);
    RFindAppend(stem, [ExtSep], ExtSep);
    RFindAppend(stem + [ExtSep], ext, Sep);
    RFindAppend(stem, [ExtSep], Sep);
    var s := RFind(stem, Sep);
    assert RFind(p, Sep) == s;
    assert RFind(p, ExtSep) == |stem|;
    var k :| s + 1 <= k < |stem| && stem[k] != ExtSep;
    assert p[k] == stem[k];
    assert HasNonDot(p, s + 1, |stem|);
    assert p[..|stem|] == stem;
    assert p[|stem|..] == [ExtSep] + ext;
  }

  /** Where the last `c` of `x + y` lies. */
  lemma {:induction false} RFindAppend(x: string, y: string, c: char)
    ensures RFind(x + y, c) == (if RFind(y, c) >= 0 then |x| + RFind(y, c) else RFind(x, c))
    decreases |y|
  {
    if |y| > 0 {
      assert (x + y)[..|x + y| - 1] == x + y[..|y| - 1];
      if y[|y| - 1] != c {
        RFindAppend(x, y[..|y| - 1], c);
      }
    } else {
      assert x + y == x;
    }
  }

  /** Removing the extension does not change the directory part. */
  lemma DirnameOfRoot(p: string)
    ensures Dirname(SplitExt(p).0) == Dirname(p)
  {
    var sep := RFind(p, Sep);
    var dot := RFind(p, ExtSep);
    if SplitExt(p).1 != "" {
      var root := p[..dot];
      assert p == root + p[dot..];
      assert RFind(p[dot..], Sep) == -1;
      RFindAppend(root, p[dot..], Sep);
      assert root[..sep + 1] == p[..sep + 1];
    }
  }

  /** `join` ends with its second argument whenever that argument is
      relative. */
  lemma JoinEndsWith(a: string, b: string)
    ensures EndsWith(Join(a, b), b)
  {
    var j := Join(a, b);
    assert j[|j| - |b|..] == b;
  }

  /** Behind a separator (or at the start), a path keeps the extension it
      has on its own. */
  lemma SplitExtAfterSep(pfx: string, b: string)
    requires |pfx| == 0 || pfx[|pfx| - 1] == Sep
    ensures SplitExt(pfx + b).1 == SplitExt(b).1
  {
    if |pfx| == 0 {
      assert pfx + b == b;
    } else {
      var p := pfx + b;
      RFindAppend(pfx, b, Sep);
      RFindAppend(pfx, b, ExtSep);
      var sb, db := RFind(b, Sep), RFind(b, ExtSep);
      var sp, dp := RFind(p, Sep), RFind(p, ExtSep);
      assert sp == |pfx| + sb;
      if db >= 0 {
        assert dp == |pfx| + db;
        if dp > sp {
          if HasNonDot(b, sb + 1, db) {
            var k :| sb + 1 <= k < db && b[k] != ExtSep;
            assert p[|pfx| + k] == b[k];
          }
          if HasNonDot(p, sp + 1, dp) {
            var k :| sp + 1 <= k < dp && p[k] != ExtSep;
            assert b[k - |pfx|] == p[k];
          }
          assert p[dp..] == b[db..];
        }
      }
    }
  }

  /** Joining a directory in front of a name leaves the name's extension. */
  lemma SplitExtOfJoin(a: string, b: string)
    ensures SplitExt(Join(a, b)).1 == SplitExt(b).1
  {
    if |b| > 0 && b[0] == Sep {
    } else if |a| == 0 || a[|a| - 1] == Sep {
      SplitExtAfterSep(a, b);
    } else {
      SplitExtAfterSep(a + [Sep], b);
    }
  }
}

=== FILE: pyvalues.dfy ===
/** The handful of dynamically typed Python values that reach the checks of
    `make_resolution` and `process_args`, with the operations those checks
    apply to them: `str`, subscription and comparison with zero. */
module PyValues {
  import opened Errors
  import Decimal

  /** A scalar Python value. `bool` is kept apart from `int`: `type(True)` is
      not `int`, yet `True <= 0` compares it as 1. */
  datatype Scalar = PyInt(i: int) | PyBool(b: bool) | PyStr(s: string) | PyNone

  /** A value that may be subscripted: a tuple or list of scalars, or a bare
      scalar. */
  datatype Value = Items(items: seq<Scalar>) | Atom(v: Scalar)

  /** `'{}'.format(v)`. */
  function Str(v: Scalar): string {
    match v
    case PyInt(i) => Decimal.IntToString(i)
    case PyBool(b) => if b then "True" else "False"
    case PyStr(s) => s
    case PyNone => "None"
  }

  /** `v[k]`: tuples and strings can be indexed, other scalars cannot. */
  function Subscript(v: Value, k: nat): Result<Scalar>
  {
    match v
    case Items(items) => if k < |items| then Ok(items[k]) else Err(IndexError)
    case Atom(PyStr(s)) => if k < |s| then Ok(PyStr([s[k]])) else Err(IndexError)
    case Atom(_) => Err(TypeError)
  }

  /** Python 3's `v <= 0`: ints and bools compare numerically, a string or
      `None` against an int raises TypeError. */
  function AtMostZero(v: Scalar): Result<bool>
  {
    match v
    case PyInt(i) => Ok(i <= 0)
    case PyBool(b) => Ok(!b)
    case _ => Err(TypeError)
  }
}
